=== FILE: README.md ===
# Emergency receiver model

A Dafny model of the receiver service of the vehicle emergency system
(`receiver/main.go`). The receiver is a Go process that:

- connects to a RabbitMQ broker, retrying up to five times;
- accepts `POST /api/event` requests that carry a JSON vehicle event, and
  re-encodes each event into the durable queue `event_queue`;
- consumes that queue with auto-acknowledgement;
- bounds the number of concurrent handlers with a semaphore, sized from the
  `CONCURRENCY_LIMIT` environment variable;
- e-mails an alert over SMTP for every event whose type is exactly
  `"Emergency"`.

The model's modules follow the parts of that file:

| module | file | models |
|---|---|---|
| `Wrappers` | `wrappers.dfy` | `Option` and the `Outcome` of a call into a library (ok or error) |
| `Events` | `events.dfy` | `VehicleEvent` and its JSON wire form: the encoder `json.Marshal` produces for the struct tags, and a reader for exactly that form |
| `Settings` | `settings.dfy` | `strconv.Atoi` for a 64-bit `int`, as used on the concurrency limit with its error discarded |
| `Connector` | `connector.dfy` | `connectToQueue`: the class `Session` holding `amqpConn`/`amqpChannel`, one attempt as a method, the retry loop as a method with invariants |
| `Ingress` | `ingress.dfy` | `eventHandler`: status codes and the publish call |
| `Notifier` | `notifier.dfy` | `sendEmailAlert`: the `SendMail` request, the message text and its header layout |
| `Worker` | `worker.dfy` | `startWorker`: the class `Dispatcher` owning the `workerPool` semaphore and the alerts sent so far |
| `Receiver` | `receiver.dfy` | `main`: the startup order, and the path of an event from request to alert |

Everything the process gets from outside becomes a parameter of the model:

- the broker's answers to dial, channel, declare, publish and consume;
- the JSON decoder's verdict on a request or delivery body;
- the environment variables.

## Model

| member | source | states |
|---|---|---|
| Events.ReadString | receiver/main.go:102 | when the reader accepts a JSON string body, the text consists of the escaped form of the string it returns, a closing quote, and the rest it returns |
| Events.ReadEscapeChar | receiver/main.go:102 | the escape `json.Marshal` writes for any one character reads back as that character, and consumes exactly the escape |
| Events.ReadStringOfEscape | receiver/main.go:102 | the escaped form of any string, followed by a closing quote, reads back as that string and the text after the quote |
| Events.EscapePlain | receiver/main.go:102 | a string of printable characters that need no escaping is encoded unchanged |
| Events.Marshal | receiver/main.go:102 | the queue body written for any event is read back by the canonical reader as that same event |
| Events.MarshalUnmarshal | receiver/main.go:149-153 | any text the canonical reader accepts is exactly the encoding of the event it returns |
| Events.MarshalInjective | receiver/main.go:102 | two different events never produce the same queue body |
| Settings.Atoi | receiver/main.go:26 | the limit read is always within the 64-bit `int` range, however long or malformed the text |
| Settings.ScanDecimal | receiver/main.go:26 | the digits of a number's decimal form scan back to that number, or report a range error once it exceeds the unsigned 64-bit maximum |
| Settings.AtoiDecimal | receiver/main.go:26 | a limit written as a decimal number reads as that number; above the 64-bit maximum it reads as the maximum, because the range error is discarded and the clamped value kept |
| Settings.AtoiNegativeDecimal | receiver/main.go:26 | a minus sign followed by a decimal reads as its negation, clamped to the 64-bit minimum |
| Settings.WordLimitIsZero | receiver/main.go:26 | the limits "abc", "-" and "4x" read as 0 |
| Settings.NotANumberIsZero | receiver/main.go:26 | an empty or non-numeric limit of up to 19 characters reads as 0, because the parse error is discarded |
| Connector.BrokerUrl | receiver/main.go:62 | the address starts with the AMQP scheme followed by `user:pass`, and ends with `@`, the host and the default AMQP port 5672; nothing else is added |
| Connector.AfterAttempt | receiver/main.go:65-67 | after an attempt the connection is that attempt's if and only if the dial succeeded; a failed dial leaves an earlier attempt's channel in place; after a successful dial the channel is the attempt's if and only if it opened; a successful attempt holds its own connection and channel |
| Connector.ConnectOutcome | receiver/main.go:64-86 | connected only at an attempt that fully succeeds, with every earlier attempt failed; fatal if and only if all five attempts fail |
| Connector.AttemptCalls | receiver/main.go:65-82 | an attempt makes one to three calls in the order dial, channel, declare; a call is made only if the one before it succeeded; the declaration is of the durable queue `event_queue`; the last call succeeds exactly when the whole attempt does |
| Connector.FirstSuccess | receiver/main.go:64-86 | returns the first fully successful attempt at or after k, every attempt before it having failed, or none when every attempt up to the fifth fails |
| Connector.Session.Attempt | receiver/main.go:65-82 | reports success exactly when all three calls succeed, appends that attempt's calls, and updates the connection and channel globals the way the assignments do |
| Connector.Session.ConnectToQueue | receiver/main.go:61-87 | the loop ends connected at the first successful attempt or fatally after five failures; its calls are those of the attempts made, in order; the globals hold what those attempts left |
| Connector.ConnectedExactlyAtFirstSuccess | receiver/main.go:64-86 | it connects at attempt k if and only if attempt k succeeds and every earlier attempt fails; it is fatal if and only if all five attempts fail |
| Connector.ConnectAttemptBound | receiver/main.go:64-86 | at most five attempts and fifteen calls are made; connecting at attempt k takes k+1 attempts, and a fatal outcome takes all five |
| Connector.ConnectCallsOrdered | receiver/main.go:64-84 | each call in the recorded sequence is one the control flow allows at that point: a channel only after a successful dial of the same attempt, a declaration only after a successful channel open, and a new dial only after a failure of the previous attempt |
| Connector.ConnectEndState | receiver/main.go:69-86 | on success the last call is the queue declaration, answered ok, and the globals hold that attempt's connection and channel; on a fatal outcome the last call of the fifth attempt failed |
| Ingress.EventPublishing | receiver/main.go:102-113 | the message goes to the default exchange with routing key `event_queue`, neither mandatory nor immediate, with content type `application/json`, and its body reads back as the event |
| Ingress.HandleEvent | receiver/main.go:90-123 | 405 if and only if the method is not POST; 400 if and only if a POST body does not decode; a publish of the re-encoded event to `event_queue` happens if and only if the method is POST and the body decodes; 200 or 500 if and only if that publish succeeds or fails |
| Ingress.NonPostIgnoresBodyAndQueue | receiver/main.go:91-94 | for a method other than POST, the response depends neither on the body nor on the broker |
| Ingress.UndecodableIgnoresQueue | receiver/main.go:96-100 | an undecodable body is answered 400 without publishing, whatever the broker would answer |
| Ingress.PublishedBodyCarriesEvent | receiver/main.go:102-113 | the published body decodes back to exactly the event the handler decoded |
| Ingress.CanonicalBodyPublishedVerbatim | receiver/main.go:96-113 | a body already in the encoder's canonical form is published byte for byte |
| Ingress.PublishedBodyDeterminesEvent | receiver/main.go:102-113 | equal published bodies mean equal events |
| Notifier.AlertMessage | receiver/main.go:165-175 | the message opens with the `To:` header line for the target, and the body is preceded by two line ends, the blank line that ends the headers |
| Notifier.AlertRequest | receiver/main.go:163-183 | the `SendMail` request goes to host:port, from `alerta@sistema.com`, to the single target address; it carries plain authentication with an empty identity if and only if a user name is configured; its message is the alert text |
| Notifier.AlertMessageLayout | receiver/main.go:165-175 | when the target and the plate contain no line break, the message reads as exactly two headers (To: target, Subject: the fixed text followed by the plate) and the alert body after a blank line |
| Notifier.AlertAddressedToRecipient | receiver/main.go:164-183 | the envelope recipient and the `To:` header name the same address |
| Notifier.PlateInjectsHeader | receiver/main.go:165-175 | a plate that contains CR LF followed by `name: value` makes the message carry a third header, because the plate is not sanitised |
| Worker.IsEmergency | receiver/main.go:155 | an event is an emergency exactly when its type has the nine characters of "Emergency", compared one by one with case and without trimming |
| Worker.Alerts | receiver/main.go:141-158 | a run of deliveries sends at most one alert per delivery |
| Worker.AlertsSound | receiver/main.go:149-158 | every alert sent is the alert for the emergency event that some delivery of the run decodes to |
| Worker.Notifications | receiver/main.go:149-158 | for one delivery: an undecodable body sends nothing, a non-emergency event sends nothing, and an emergency event sends exactly one alert, the one for that event |
| Worker.EmergencyEvents | receiver/main.go:141-158 | the emergency events of a run of deliveries: each one is an emergency that some delivery decodes to, and every decodable emergency delivery contributes its event |
| Worker.Requests | receiver/main.go:155-183 | one alert request per event, in order |
| Worker.Dispatcher.constructor | receiver/main.go:51 | the semaphore starts empty with the given capacity, and nothing has been sent |
| Worker.Dispatcher.Acquire | receiver/main.go:142 | a token is taken if and only if one is free; otherwise nothing changes; no alert is sent; the count of tokens never exceeds the capacity |
| Worker.Dispatcher.Finish | receiver/main.go:144-159 | the handler's token is released on every path, including an undecodable body; the alerts sent grow by exactly the notifications for that delivery |
| Worker.Dispatcher.Consume | receiver/main.go:141-160 | starting with no token held: with a capacity above 0 every delivery is handled and its alerts are sent in delivery order; with capacity 0 the loop blocks at the first delivery and nothing is sent; no token is held afterwards |
| Worker.ExactTypeOnly | receiver/main.go:155 | "emergency", "EMERGENCY" and "Emergency " raise no alert: the comparison is exact |
| Worker.AlertsOfEmergencies | receiver/main.go:141-158 | the alerts for a run of deliveries are the alert requests for its emergency events, one per event, in delivery order |
| Worker.AlertsAppend | receiver/main.go:141-160 | handling two runs one after the other sends the first run's alerts, then the second's |
| Worker.DuplicateDeliveryAlertedTwice | receiver/main.go:141-158 | an emergency delivered twice raises two alerts at its place in the run: nothing de-duplicates deliveries |
| Worker.UndecodableSkipped | receiver/main.go:149-153 | an undecodable delivery changes nothing that is sent, neither before nor after it |
| Receiver.Start | receiver/main.go:39-58 | startup ends fatally if and only if all five attempts fail; it panics if and only if it connected and the limit reads negative; it ends on a consume failure if and only if those passed and consuming fails; otherwise it keeps running with a semaphore of the size the limit reads as |
| Receiver.Boot | receiver/main.go:39-52 | `main` step by step ends as `Start` says, and connects with the calls of the retry loop to the address built from the credentials |
| Receiver.StartRunning | receiver/main.go:39-58 | the process keeps running if and only if some attempt connects, the limit reads as non-negative and consuming starts; the semaphore then has the size the limit reads as |
| Receiver.NonNumericLimitIsZero | receiver/main.go:26 | with an unset limit, or a non-numeric one of at most 19 characters, the receiver runs with a semaphore of size 0 |
| Receiver.RunWorker | receiver/main.go:126-161 | a worker with limit 0 is stuck at its first delivery and sends nothing; with a positive limit it sends exactly the alerts for all deliveries |
| Receiver.AcceptedEmergencies | receiver/main.go:90-158 | every event it lists, from the requests answered 200, is an emergency |
| Receiver.AlertsForAcceptedEmergencies | receiver/main.go:90-161 | end to end, for a worker with a positive limit (see `Receiver.RunWorker`) and any decoder that reads back every encoded event: consuming what the handler enqueued sends one alert per emergency event answered 200, in request order, and nothing for requests answered 405, 400 or 500 |
| Receiver.AlertsForAcceptedEmergenciesCanonical | receiver/main.go:90-161 | the end-to-end property holds with the canonical reader as the worker's decoder |
| Receiver.OneEventOneAlert | receiver/main.go:102-158 | a POSTed event that is published successfully gets 200 and, for a worker with a positive limit (see `Receiver.RunWorker`), leads to its own alert if it is an emergency, and to none otherwise |
| Receiver.FiveFailuresAreFatal | receiver/main.go:39-86 | five failed attempts end the process before it serves any request |
| Receiver.EmergencyScenario | receiver/main.go:90-183 | an "Emergency" event for plate ABC123 is accepted with 200, and a worker with a positive limit (see `Receiver.RunWorker`) sends exactly its alert |
| Receiver.InfoScenario | receiver/main.go:90-158 | an "Info" event for plate XYZ999 is accepted with 200, and no alert is sent |

## Left out

- HTTP plumbing: routing, `ListenAndServe`, and the response texts. The model keeps the status code and the publish call.
- Log lines, the five-second sleep between attempts, and the timestamps in logs. None of them changes what the code does next.
- Reading the environment: credentials, SMTP settings and the limit are parameters.
- The AMQP protocol itself. Dial, channel, declare, publish and consume are calls whose answers are parameters.
- The deferred close of receiver/main.go:42-49. It runs only when `make` panics on a negative limit; `log.Fatal` and `log.Fatalf` exit without running deferred functions. The model does not track it.
- Connections opened by failed attempts are not closed by the source. The model does not track them.
- The general JSON decoder (`json.NewDecoder(...).Decode`, `json.Unmarshal`) is a parameter:
  - `Events.Unmarshal` reads only the canonical form that `json.Marshal` writes;
  - arbitrary JSON, unknown fields and field-name case folding are not modelled.
- The error `json.Marshal` returns is discarded in the source. It cannot fail for a struct of three strings, so the model has no error path for it.
- Go's replacement of invalid UTF-8 with U+FFFD while encoding. Dafny strings are sequences of characters, not bytes.
- Goroutine scheduling:
  - `Worker.Dispatcher.Acquire` and `Worker.Dispatcher.Finish` are separate steps, so interleavings can be written with them;
  - alerts may be sent in another order in the running system.
- Worker.Dispatcher.Consume: models one schedule, starting with no token held, in which each handler finishes before the next delivery is received. With tokens held by handlers still running, a full semaphore only delays the loop until one finishes; that interleaving is not modelled.
- Receiver.AlertsForAcceptedEmergencies: the queue is modelled as an initially empty, lossless FIFO that holds exactly the bodies whose publish call returned no error, in request order. The publish is neither mandatory nor confirmed and the messages are not persistent, so a broker that drops a message after such a publish, or loses it on restart, is not modelled.
- Receiver.StartRunning: the consume call runs in the worker goroutine, concurrently with the HTTP server. Requests that arrive before a consume failure ends the process are answered and may be published. `Receiver.Start` records how startup ends, not when.
- The SMTP transport: the dialogue, TLS, and the `PlainAuth` rule that refuses to send credentials to a non-TLS, non-local host. The model stops at the request handed to `SendMail`. The send result is only logged, so no path depends on it.
- `Settings.Atoi` assumes a 64-bit platform. On a 32-bit platform `int` is 32 bits.
- Four behaviours of the code that the model keeps as written:
  - the published message sets no persistent delivery mode;
  - a limit of 0 (also what an unset limit, or a non-numeric one of at most 19 characters, reads as; a longer one can overflow before its first non-digit and read as the 64-bit maximum or, after a minus sign, as the minimum, so `make` panics) makes the consumer loop block forever at the first delivery (`Receiver.RunWorker`);
  - a negative limit panics in `make` (`Receiver.Start`);
  - the notifier reports no success or failure to its caller.

=== FILE: connector.dfy ===
/** Queue connection with retry: `connectToQueue` (receiver/main.go:61-87).

    Each attempt dials the broker, opens a channel on the connection and
    declares the durable queue `event_queue`, stopping at the first of the
    three calls that fails. The function returns on the first attempt whose
    three calls all succeed; after five failed attempts the process exits.
    The broker's answers are an oracle: `answers[k]` holds what the broker
    would answer to the three calls of attempt k. */
module Connector {
  import opened Wrappers

  const MaxAttempts: nat := 5
  const QueueName: string := "event_queue"

  /** The queue declared at receiver/main.go:69-76. */
  datatype QueueDecl = QueueDecl(name: string, durable: bool, autoDelete: bool, exclusive: bool, noWait: bool)

  const EventQueue: QueueDecl := QueueDecl(QueueName, true, false, false, false)

  /** A call made to the broker while connecting. */
  datatype Step = Dial(url: string) | OpenChannel | DeclareQueue(queue: QueueDecl)

  /** What the broker answers to the three calls of one attempt, should they be made. */
  datatype Answers = Answers(dial: Outcome, channel: Outcome, declare: Outcome)

  /** One call, tagged with its attempt number and the broker's answer. */
  datatype Call = Call(attempt: nat, step: Step, result: Outcome)

  datatype ConnectResult = Connected(attempt: nat) | Fatal

  /** The globals `amqpConn` and `amqpChannel`: a usable handle is named by the
      attempt that obtained it; `None` is no usable handle. */
  datatype Handles = Handles(conn: Option<nat>, channel: Option<nat>)

  const Scheme: string := "amqp://"
  const PortSuffix: string := ":5672/"

  /** The broker address built at receiver/main.go:62: the AMQP scheme, the
      credentials, and the configured host on the default AMQP port. */
  function BrokerUrl(user: string, pass: string, host: string): (url: string)
    ensures Scheme + user + ":" + pass <= url
    ensures |url| == |Scheme| + |user| + 1 + |pass| + 1 + |host| + |PortSuffix|
    ensures url[|url| - |host| - |PortSuffix| - 1..] == "@" + host + PortSuffix
  {
    var credentials := Scheme + user + ":" + pass;
    var address := "@" + host + PortSuffix;
    assert (credentials + address)[|credentials|..] == address;
    credentials + address
  }

  predicate Succeeds(a: Answers) {
    a.dial.Ok? && a.channel.Ok? && a.declare.Ok?
  }

  /** The calls attempt `k` makes: dial, then open a channel only if the dial
      succeeded, then declare the queue only if the channel opened. */
  function AttemptCalls(url: string, k: nat, a: Answers): (calls: seq<Call>)
    ensures 1 <= |calls| <= 3
    ensures calls[0] == Call(k, Dial(url), a.dial)
    ensures |calls| >= 2 <==> a.dial.Ok?
    ensures |calls| >= 2 ==> calls[1] == Call(k, OpenChannel, a.channel)
    ensures |calls| == 3 <==> a.dial.Ok? && a.channel.Ok?
    ensures |calls| == 3 ==> calls[2] == Call(k, DeclareQueue(EventQueue), a.declare)
    ensures calls[|calls| - 1].result.Ok? <==> Succeeds(a)
    ensures forall i :: 0 <= i < |calls| ==> calls[i].attempt == k
  {
    var dial := [Call(k, Dial(url), a.dial)];
    if a.dial.Failed? then dial
    else if a.channel.Failed? then dial + [Call(k, OpenChannel, a.channel)]
    else dial + [Call(k, OpenChannel, a.channel), Call(k, DeclareQueue(EventQueue), a.declare)]
  }

  /** The globals after attempt `k`: a failed dial clears the connection but
      leaves the channel of an earlier attempt in place; a failed channel
      open clears the channel. */
  function AfterAttempt(h: Handles, k: nat, a: Answers): (r: Handles)
    ensures r.conn.Some? <==> a.dial.Ok?
    ensures r.conn.Some? ==> r.conn.value == k
    ensures a.dial.Failed? ==> r.channel == h.channel
    ensures a.dial.Ok? ==> (r.channel.Some? <==> a.channel.Ok?)
    ensures a.dial.Ok? && r.channel.Some? ==> r.channel.value == k
    ensures Succeeds(a) ==> r == Handles(Some(k), Some(k))
  {
    if a.dial.Failed? then Handles(None, h.channel)
    else if a.channel.Failed? then Handles(Some(k), None)
    else Handles(Some(k), Some(k))
  }

  /** The first attempt at or after `k` whose three calls all succeed. */
  function FirstSuccess(answers: seq<Answers>, k: nat): (r: Option<nat>)
    requires |answers| == MaxAttempts
    ensures r.Some? ==> k <= r.value < MaxAttempts && Succeeds(answers[r.value])
    ensures r.Some? ==> forall j :: k <= j < r.value ==> !Succeeds(answers[j])
    ensures r.None? ==> forall j :: k <= j < MaxAttempts ==> !Succeeds(answers[j])
    decreases MaxAttempts - k
  {
    if k >= MaxAttempts then None
    else if Succeeds(answers[k]) then Some(k)
    else FirstSuccess(answers, k + 1)
  }

  /** What `connectToQueue` ends with. */
  function ConnectOutcome(answers: seq<Answers>): (r: ConnectResult)
    requires |answers| == MaxAttempts
    ensures r.Connected? ==> r.attempt < MaxAttempts && Succeeds(answers[r.attempt])
    ensures r.Connected? ==> forall j :: 0 <= j < r.attempt ==> !Succeeds(answers[j])
    ensures r.Fatal? <==> forall j :: 0 <= j < MaxAttempts ==> !Succeeds(answers[j])
  {
    match FirstSuccess(answers, 0)
    case Some(k) => Connected(k)
    case None => Fatal
  }

  /** How many attempts are made. */
  function AttemptsMade(answers: seq<Answers>): nat
    requires |answers| == MaxAttempts
  {
    match FirstSuccess(answers, 0)
    case Some(k) => k + 1
    case None => MaxAttempts
  }

  /** The calls made by attempts 0 .. n-1, in order. */
  function CallsUpTo(url: string, answers: seq<Answers>, n: nat): seq<Call>
    requires n <= |answers|
  {
    if n == 0 then [] else CallsUpTo(url, answers, n - 1) + AttemptCalls(url, n - 1, answers[n - 1])
  }

  /** The globals after attempts 0 .. n-1, starting from `h`. */
  function HandlesUpTo(h: Handles, answers: seq<Answers>, n: nat): Handles
    requires n <= |answers|
  {
    if n == 0 then h else AfterAttempt(HandlesUpTo(h, answers, n - 1), n - 1, answers[n - 1])
  }

  /** Every call `connectToQueue` makes, in order. */
  function ConnectCalls(url: string, answers: seq<Answers>): seq<Call>
    requires |answers| == MaxAttempts
  {
    CallsUpTo(url, answers, AttemptsMade(answers))
  }

  /** The owner of the broker session: the globals `amqpConn` and
      `amqpChannel` of receiver/main.go:28-29. */
  class Session {
    var conn: Option<nat>
    var channel: Option<nat>
    /** The calls made to the broker while connecting, in order. */
    ghost var calls: seq<Call>

    constructor ()
      ensures conn == None && channel == None && calls == []
    {
      conn := None;
      channel := None;
      calls := [];
    }

    /** One attempt of the loop at receiver/main.go:65-82: dial, open a
        channel, declare the queue, stopping at the first failure. */
    method Attempt(url: string, k: nat, a: Answers) returns (ok: bool)
      modifies this
      ensures ok == Succeeds(a)
      ensures calls == old(calls) + AttemptCalls(url, k, a)
      ensures Handles(conn, channel) == AfterAttempt(old(Handles(conn, channel)), k, a)
    {
      var err := a.dial;
      conn := if err.Ok? then Some(k) else None;
      calls := calls + [Call(k, Dial(url), err)];
      if err.Ok? {
        err := a.channel;
        channel := if err.Ok? then Some(k) else None;
        calls := calls + [Call(k, OpenChannel, err)];
        if err.Ok? {
          err := a.declare;
          calls := calls + [Call(k, DeclareQueue(EventQueue), err)];
        }
      }
      ok := err.Ok?;
    }

    /** connectToQueue (receiver/main.go:61-87). */
    method ConnectToQueue(url: string, answers: seq<Answers>) returns (r: ConnectResult)
      requires |answers| == MaxAttempts
      modifies this
      ensures r == ConnectOutcome(answers)
      ensures calls == ConnectCalls(url, answers)
      ensures Handles(conn, channel) == HandlesUpTo(old(Handles(conn, channel)), answers, AttemptsMade(answers))
    {
      ghost var h0 := Handles(conn, channel);
      calls := [];
      var i := 0;
      while i < MaxAttempts
        invariant 0 <= i <= MaxAttempts
        invariant forall j :: 0 <= j < i ==> !Succeeds(answers[j])
        invariant calls == CallsUpTo(url, answers, i)
        invariant Handles(conn, channel) == HandlesUpTo(h0, answers, i)
      {
        var ok := Attempt(url, i, answers[i]);
        if ok {
          assert AttemptsMade(answers) == i + 1 by {
            ConnectedExactlyAtFirstSuccess(answers, i);
          }
          return Connected(i);
        }
        // The failure is logged and the loop sleeps five seconds.
        i := i + 1;
      }
      assert AttemptsMade(answers) == MaxAttempts by {
        ConnectedExactlyAtFirstSuccess(answers, 0);
      }
      return Fatal;
    }
  }

  // ---------------------------------------------------------------------
  // Properties

  /** The outcome is the first fully successful attempt, if there is one
      within five attempts, and fatal otherwise. */
  lemma ConnectedExactlyAtFirstSuccess(answers: seq<Answers>, k: nat)
    requires |answers| == MaxAttempts
    ensures ConnectOutcome(answers) == Connected(k) <==>
      k < MaxAttempts && Succeeds(answers[k]) && forall j :: 0 <= j < k ==> !Succeeds(answers[j])
    ensures ConnectOutcome(answers) == Fatal <==> forall j :: 0 <= j < MaxAttempts ==> !Succeeds(answers[j])
  {
  }

  /** Calls made by the first n attempts: at most three per attempt, each
      tagged with an attempt below n, and the last one belongs to attempt n-1. */
  lemma {:induction false} CallsUpToShape(url: string, answers: seq<Answers>, n: nat)
    requires n <= |answers|
    ensures n <= |CallsUpTo(url, answers, n)| <= 3 * n
    ensures forall i :: 0 <= i < |CallsUpTo(url, answers, n)| ==> CallsUpTo(url, answers, n)[i].attempt < n
    ensures n > 0 ==> CallsUpTo(url, answers, n)[|CallsUpTo(url, answers, n)| - 1].attempt == n - 1
  {
    if n > 0 {
      var prev := CallsUpTo(url, answers, n - 1);
      var last := AttemptCalls(url, n - 1, answers[n - 1]);
      assert n - 1 <= |prev| <= 3 * (n - 1) && forall i :: 0 <= i < |prev| ==> prev[i].attempt < n - 1 by {
        CallsUpToShape(url, answers, n - 1);
      }
      forall i | 0 <= i < |prev + last|
        ensures (prev + last)[i].attempt < n
      {
        if i < |prev| { assert (prev + last)[i] == prev[i]; }
        else { assert (prev + last)[i] == last[i - |prev|]; }
      }
    }
  }

  /** At most five attempts and fifteen calls are made; connecting at attempt
      k makes exactly k + 1 attempts, a fatal outcome exactly five. */
  lemma ConnectAttemptBound(url: string, answers: seq<Answers>)
    requires |answers| == MaxAttempts
    ensures AttemptsMade(answers) <= MaxAttempts
    ensures |ConnectCalls(url, answers)| <= 3 * MaxAttempts
    ensures forall i :: 0 <= i < |ConnectCalls(url, answers)| ==>
      ConnectCalls(url, answers)[i].attempt < AttemptsMade(answers)
    ensures ConnectOutcome(answers).Connected? ==> AttemptsMade(answers) == ConnectOutcome(answers).attempt + 1
    ensures ConnectOutcome(answers).Fatal? ==> AttemptsMade(answers) == MaxAttempts
  {
    CallsUpToShape(url, answers, AttemptsMade(answers));
  }

  /** Call i is where the source's control flow can put it. A dial is the
      very first call, of attempt 0, or comes right after a failed call of
      the previous attempt. A channel is opened only right after a successful
      dial of the same attempt, and the queue is declared only right after a
      successful channel open of the same attempt. */
  ghost predicate OrderedAt(calls: seq<Call>, i: nat)
    requires i < |calls|
  {
    match calls[i].step
    case Dial(_) =>
      (i == 0 && calls[i].attempt == 0)
      || (i > 0 && calls[i - 1].result.Failed? && calls[i - 1].attempt + 1 == calls[i].attempt)
    case OpenChannel =>
      i > 0 && calls[i - 1].step.Dial? && calls[i - 1].result.Ok? && calls[i - 1].attempt == calls[i].attempt
    case DeclareQueue(_) =>
      i > 0 && calls[i - 1].step.OpenChannel? && calls[i - 1].result.Ok? && calls[i - 1].attempt == calls[i].attempt
  }

  ghost predicate Ordered(calls: seq<Call>) {
    forall i :: 0 <= i < |calls| ==> OrderedAt(calls, i)
  }

  /** Appending one attempt keeps the calls ordered, provided the calls
      before it end in a failure of the previous attempt. */
  lemma AppendAttemptOrdered(prev: seq<Call>, url: string, k: nat, a: Answers)
    requires Ordered(prev)
    requires k == 0 ==> prev == []
    requires k > 0 ==> |prev| > 0 && prev[|prev| - 1].result.Failed? && prev[|prev| - 1].attempt + 1 == k
    ensures Ordered(prev + AttemptCalls(url, k, a))
  {
    var last := AttemptCalls(url, k, a);
    var calls := prev + last;
    forall i | 0 <= i < |calls|
      ensures OrderedAt(calls, i)
    {
      if i < |prev| {
        assert OrderedAt(prev, i);
      }
    }
  }

  /** The last call of the first n attempts is the last call of attempt
      n-1, and it succeeded exactly when that attempt did. */
  lemma LastCall(url: string, answers: seq<Answers>, n: nat)
    requires 0 < n <= |answers|
    ensures var calls := CallsUpTo(url, answers, n);
      |calls| > 0 && calls[|calls| - 1].attempt == n - 1
      && (calls[|calls| - 1].result.Ok? <==> Succeeds(answers[n - 1]))
  {
    var prev := CallsUpTo(url, answers, n - 1);
    var last := AttemptCalls(url, n - 1, answers[n - 1]);
    assert (prev + last)[|prev + last| - 1] == last[|last| - 1];
  }

  lemma {:induction false} CallsUpToOrdered(url: string, answers: seq<Answers>, n: nat)
    requires n <= |answers|
    requires forall j :: 0 <= j < n - 1 ==> !Succeeds(answers[j])
    ensures Ordered(CallsUpTo(url, answers, n))
  {
    if n > 0 {
      var prev := CallsUpTo(url, answers, n - 1);
      assert Ordered(prev) by {
        CallsUpToOrdered(url, answers, n - 1);
      }
      if n > 1 {
        LastCall(url, answers, n - 1);
      }
      AppendAttemptOrdered(prev, url, n - 1, answers[n - 1]);
    }
  }

  /** The calls `connectToQueue` makes follow the order of the source (see
      `OrderedAt`); in particular the first call dials, in attempt 0. */
  lemma ConnectCallsOrdered(url: string, answers: seq<Answers>)
    requires |answers| == MaxAttempts
    ensures Ordered(ConnectCalls(url, answers))
    ensures ConnectCalls(url, answers)[0].step.Dial? && ConnectCalls(url, answers)[0].attempt == 0
  {
    CallsUpToOrdered(url, answers, AttemptsMade(answers));
    CallsUpToShape(url, answers, AttemptsMade(answers));
    assert OrderedAt(ConnectCalls(url, answers), 0);
  }

  /** On success the last call is the queue declaration of the connecting
      attempt, answered Ok, and the globals hold that attempt's connection
      and channel; on a fatal outcome the last call failed. */
  lemma ConnectEndState(url: string, answers: seq<Answers>, h: Handles)
    requires |answers| == MaxAttempts
    ensures var calls := ConnectCalls(url, answers);
      match ConnectOutcome(answers)
      case Connected(k) =>
        calls[|calls| - 1] == Call(k, DeclareQueue(EventQueue), Ok)
        && HandlesUpTo(h, answers, AttemptsMade(answers)) == Handles(Some(k), Some(k))
      case Fatal =>
        calls[|calls| - 1].result.Failed? && calls[|calls| - 1].attempt == MaxAttempts - 1
  {
  }
}

=== FILE: events.dfy ===
/** The event that flows from the ingress endpoint through the queue to the
    dispatch worker, and its JSON wire form.

    The wire form is what `json.Marshal` writes for the struct of
    receiver/main.go:33-37: the three fields in declaration order under their
    tags `type`, `vehicle_plate` and `status`, with no white space, and each
    string quoted the way Go's encoder quotes strings (HTML-safe escaping,
    short escapes for \b \f \n \r \t, `\u00xx` for the other control
    characters, U+2028 and U+2029). `Unmarshal` reads back exactly that
    layout; it is not a general JSON decoder. */
module Events {
  import opened Wrappers

  /** VehicleEvent (receiver/main.go:33-37). `Type` is a Dafny keyword, so the
      field is called `eventType`. */
  datatype VehicleEvent = VehicleEvent(eventType: string, vehiclePlate: string, status: string)

  const HexDigits: string := "0123456789abcdef"

  /** Characters Go's HTML-safe encoder writes verbatim inside a string. */
  predicate IsPlain(c: char) {
    ' ' <= c && c != '"' && c != '\\' && c != '<' && c != '>' && c != '&'
    && c != '\U{2028}' && c != '\U{2029}'
  }

  /** `\uXXXX` with four lower-case hexadecimal digits. */
  function UnicodeEscape(c: char): (r: string)
    requires c as int < 0x1_0000
    ensures |r| == 6 && r[0] == '\\' && r[1] == 'u'
  {
    var n := c as int;
    ['\\', 'u', HexDigits[n / 16 / 16 / 16], HexDigits[n / 16 / 16 % 16], HexDigits[n / 16 % 16], HexDigits[n % 16]]
  }

  /** The letter of the two-character escape the encoder uses for `c`, if any. */
  function ShortName(c: char): Option<char> {
    if c == '"' then Some('"')
    else if c == '\\' then Some('\\')
    else if c == '\U{8}' then Some('b')
    else if c == '\U{c}' then Some('f')
    else if c == '\n' then Some('n')
    else if c == '\r' then Some('r')
    else if c == '\t' then Some('t')
    else None
  }

  /** How the encoder writes one character of a string value. */
  function EscapeChar(c: char): (r: string)
    ensures 1 <= |r| && r[0] != '"'
  {
    match ShortName(c)
    case Some(x) => ['\\', x]
    case None => if IsPlain(c) then [c] else UnicodeEscape(c)
  }

  /** The inside of a quoted string value, without its quotes. */
  function Escape(s: string): string {
    if s == [] then [] else EscapeChar(s[0]) + Escape(s[1..])
  }

  const TypeKey: string := "{\"type\":\""
  const PlateKey: string := ",\"vehicle_plate\":\""
  const StatusKey: string := ",\"status\":\""

  /** One member: its key with the opening quote, the encoded value and the
      closing quote, followed by `rest`. */
  function Field(key: string, value: string, rest: string): string {
    key + Escape(value) + "\"" + rest
  }

  /** `json.Marshal` of a VehicleEvent:
      {"type":"…","vehicle_plate":"…","status":"…"}
      Every event read back from its wire form is the event that was
      written: what the ingress endpoint publishes reaches the worker
      unchanged. */
  function Marshal(e: VehicleEvent): (r: string)
    ensures Unmarshal(r) == Some(e)
  {
    var tail2 := Field(StatusKey, e.status, "}");
    var tail1 := Field(PlateKey, e.vehiclePlate, tail2);
    ReadFieldOf(TypeKey, e.eventType, tail1);
    ReadFieldOf(PlateKey, e.vehiclePlate, tail2);
    ReadFieldOf(StatusKey, e.status, "}");
    Field(TypeKey, e.eventType, tail1)
  }

  function HexValue(ch: char): Option<nat> {
    if '0' <= ch <= '9' then Some(ch as int - '0' as int)
    else if 'a' <= ch <= 'f' then Some(ch as int - 'a' as int + 10)
    else None
  }

  function Hex4(t: string): Option<nat>
    requires |t| == 4
  {
    match (HexValue(t[0]), HexValue(t[1]), HexValue(t[2]), HexValue(t[3]))
    case (Some(a), Some(b), Some(c), Some(d)) => Some(4096 * a + 256 * b + 16 * c + d)
    case _ => None
  }

  function ShortEscape(ch: char): Option<char> {
    if ch == '"' then Some('"')
    else if ch == '\\' then Some('\\')
    else if ch == 'b' then Some('\U{8}')
    else if ch == 'f' then Some('\U{c}')
    else if ch == 'n' then Some('\n')
    else if ch == 'r' then Some('\r')
    else if ch == 't' then Some('\t')
    else None
  }

  /** The character a lexeme at the front of `t` stands for, and the
      lexeme's length, before checking that the encoder writes it that way. */
  function Candidate(t: string): Option<(char, nat)>
    requires |t| > 0
  {
    if t[0] != '\\' then Some((t[0], 1))
    else if |t| >= 6 && t[1] == 'u' then
      match Hex4(t[2..6])
      case Some(n) =>
        if n < 0xD800 || 0xE000 <= n then Some((n as char, 6)) else None
      case None => None
    else if |t| >= 2 then
      match ShortEscape(t[1])
      case Some(c) => Some((c, 2))
      case None => None
    else None
  }

  /** Reads one encoded character from the front of `t`: only a lexeme the
      encoder itself would write is accepted. */
  function ReadChar(t: string): (r: Option<(char, nat)>)
    ensures r.Some? ==> 1 <= r.value.1 <= |t| && t[..r.value.1] == EscapeChar(r.value.0)
  {
    if |t| == 0 then None
    else match Candidate(t)
      case Some((c, k)) => if k <= |t| && t[..k] == EscapeChar(c) then Some((c, k)) else None
      case None => None
  }

  /** Reads an encoded string up to and including its closing quote; returns
      the decoded value and what follows the quote. Whatever it accepts is an
      encoded string followed by its quote. */
  function ReadString(t: string): (r: Option<(string, string)>)
    ensures r.Some? ==> t == Escape(r.value.0) + "\"" + r.value.1
    decreases |t|
  {
    if |t| == 0 then None
    else if t[0] == '"' then
      assert t == "\"" + t[1..];
      Some(([], t[1..]))
    else match ReadChar(t)
      case None => None
      case Some((c, k)) =>
        match ReadString(t[k..])
        case None => None
        case Some((s, rest)) =>
          EscapeCons(c, s);
          Glue(t, k, EscapeChar(c), Escape(s), "\"", rest);
          Some(([c] + s, rest))
  }

  function DropPrefix(p: string, t: string): Option<string> {
    if |p| <= |t| && t[..|p|] == p then Some(t[|p|..]) else None
  }

  /** Reads `key`, then an encoded string and its closing quote. */
  function ReadField(key: string, t: string): Option<(string, string)> {
    match DropPrefix(key, t)
    case None => None
    case Some(t') => ReadString(t')
  }

  /** Reads back the wire form that `Marshal` writes. */
  function Unmarshal(t: string): Option<VehicleEvent> {
    match ReadField(TypeKey, t)
    case None => None
    case Some((kind, r1)) =>
      match ReadField(PlateKey, r1)
      case None => None
      case Some((plate, r2)) =>
        match ReadField(StatusKey, r2)
        case None => None
        case Some((status, r3)) =>
          if r3 == "}" then Some(VehicleEvent(kind, plate, status)) else None
  }

  // ---------------------------------------------------------------------
  // Round trips

  lemma HexDigitValue(d: nat)
    requires d < 16
    ensures HexValue(HexDigits[d]) == Some(d)
  {
  }

  lemma Hex4OfEscape(c: char)
    requires c as int < 0x1_0000
    ensures Hex4(UnicodeEscape(c)[2..6]) == Some(c as int)
  {
    var n := c as int;
    var t := UnicodeEscape(c)[2..6];
    var q1 := n / 16;
    var q2 := q1 / 16;
    var q3 := q2 / 16;
    HexDigitValue(q3);
    HexDigitValue(q2 % 16);
    HexDigitValue(q1 % 16);
    HexDigitValue(n % 16);
    assert n == 16 * q1 + n % 16 && q1 == 16 * q2 + q1 % 16 && q2 == 16 * q3 + q2 % 16;
  }

  lemma CandidateOfShort(c: char, rest: string)
    requires ShortName(c).Some?
    ensures Candidate(['\\', ShortName(c).value] + rest) == Some((c, 2))
  {
    var t := ['\\', ShortName(c).value] + rest;
    assert t[0] == '\\' && t[1] == ShortName(c).value;
  }

  lemma CandidateOfUnicode(c: char, rest: string)
    requires c as int < 0x1_0000
    ensures Candidate(UnicodeEscape(c) + rest) == Some((c, 6))
  {
    var e := UnicodeEscape(c);
    var t := e + rest;
    Hex4OfEscape(c);
    assert t[0] == '\\' && t[1] == 'u' && t[2..6] == e[2..6];
  }

  /** The lexeme the encoder writes for `c` is recognised as standing for `c`. */
  lemma CandidateOfEscape(c: char, rest: string)
    ensures Candidate(EscapeChar(c) + rest) == Some((c, |EscapeChar(c)|))
  {
    var e := EscapeChar(c);
    if ShortName(c).Some? {
      CandidateOfShort(c, rest);
    } else if IsPlain(c) {
      assert (e + rest)[0] == c;
    } else {
      CandidateOfUnicode(c, rest);
    }
  }

  /** Reading one encoded character gives back that character. */
  lemma ReadEscapeChar(c: char, rest: string)
    ensures ReadChar(EscapeChar(c) + rest) == Some((c, |EscapeChar(c)|))
  {
    var e := EscapeChar(c);
    assert (e + rest)[..|e|] == e;
    CandidateOfEscape(c, rest);
  }

  /** Reading an encoded string followed by its closing quote gives back the
      string and what follows. */
  lemma {:induction false} ReadStringOfEscape(s: string, rest: string)
    ensures ReadString(Escape(s) + "\"" + rest) == Some((s, rest))
  {
    var t := Escape(s) + "\"" + rest;
    if s == [] {
      assert t == "\"" + rest;
    } else {
      var e := EscapeChar(s[0]);
      var tail := Escape(s[1..]) + "\"" + rest;
      assert t == e + tail;
      assert t[0] != '"' && t[|e|..] == tail;
      assert ReadChar(t) == Some((s[0], |e|)) by {
        ReadEscapeChar(s[0], tail);
      }
      assert ReadString(tail) == Some((s[1..], rest)) by {
        ReadStringOfEscape(s[1..], rest);
      }
      assert [s[0]] + s[1..] == s;
    }
  }

  /** `t` cut at `k` into a known head and a known tail. */
  lemma Glue(t: string, k: nat, head: string, x: string, y: string, z: string)
    requires k <= |t| && t[..k] == head && t[k..] == x + y + z
    ensures t == head + x + y + z
  {
    assert t == t[..k] + t[k..];
  }

  lemma EscapeCons(c: char, s: string)
    ensures Escape([c] + s) == EscapeChar(c) + Escape(s)
  {
    assert ([c] + s)[0] == c && ([c] + s)[1..] == s;
  }

  /** A string of characters the encoder writes verbatim is written as is. */
  lemma {:induction false} EscapePlain(s: string)
    requires forall i :: 0 <= i < |s| ==> IsPlain(s[i])
    ensures Escape(s) == s
    decreases |s|
  {
    if s != [] {
      assert ShortName(s[0]).None?;
      EscapePlain(s[1..]);
      assert s == [s[0]] + s[1..];
    }
  }

  lemma DropPrefixOf(p: string, t: string)
    ensures DropPrefix(p, p + t) == Some(t)
  {
    assert (p + t)[..|p|] == p;
    assert (p + t)[|p|..] == t;
  }

  lemma ReadFieldOf(key: string, s: string, rest: string)
    ensures ReadField(key, Field(key, s, rest)) == Some((s, rest))
  {
    var t := Escape(s) + "\"" + rest;
    assert Field(key, s, rest) == key + t;
    assert DropPrefix(key, key + t) == Some(t) by {
      DropPrefixOf(key, t);
    }
    assert ReadString(t) == Some((s, rest)) by {
      ReadStringOfEscape(s, rest);
    }
  }

  lemma ReadFieldIsField(key: string, t: string, s: string, rest: string)
    requires ReadField(key, t) == Some((s, rest))
    ensures t == Field(key, s, rest)
  {
    var t' := DropPrefix(key, t).value;
    assert t == key + t';
  }

  /** Every text `Unmarshal` accepts is byte for byte the encoding of the
      event it yields: re-encoding it reproduces the text. */
  lemma MarshalUnmarshal(t: string, e: VehicleEvent)
    requires Unmarshal(t) == Some(e)
    ensures Marshal(e) == t
  {
    var (kind, r1) := ReadField(TypeKey, t).value;
    ReadFieldIsField(TypeKey, t, kind, r1);
    var (plate, r2) := ReadField(PlateKey, r1).value;
    ReadFieldIsField(PlateKey, r1, plate, r2);
    var (status, r3) := ReadField(StatusKey, r2).value;
    ReadFieldIsField(StatusKey, r2, status, r3);
  }

  /** Encoding is injective: two events with the same wire form are equal. */
  lemma MarshalInjective(e1: VehicleEvent, e2: VehicleEvent)
    requires Marshal(e1) == Marshal(e2)
    ensures e1 == e2
  {
    assert Unmarshal(Marshal(e1)) == Some(e1);
  }
}

=== FILE: ingress.dfy ===
/** The ingress endpoint: `eventHandler` (receiver/main.go:90-123).

    The handler checks the method, decodes the body, re-encodes the decoded
    event and publishes it once to the queue. The JSON decoder and the
    broker are oracles: `decoded` is what `json.NewDecoder(r.Body).Decode`
    yields (None for a decode error) and `publish` is the answer of
    `PublishWithContext`. The response is the status code written and the
    message handed to the broker, if any. */
module Ingress {
  import opened Wrappers
  import opened Events
  import Connector

  const StatusOK: int := 200
  const StatusBadRequest: int := 400
  const StatusMethodNotAllowed: int := 405
  const StatusInternalServerError: int := 500

  /** A publish call (receiver/main.go:104-113): exchange, routing key, the
      mandatory and immediate flags, and the message. No delivery mode is
      set on the message. */
  datatype Publishing = Publishing(
    exchange: string, routingKey: string, mandatory: bool, immediate: bool,
    contentType: string, body: string)

  /** What the handler does: the status it writes and the publish call it
      makes, if any. */
  datatype Response = Response(status: int, published: Option<Publishing>)

  /** The message published for a decoded event: default exchange, routing
      key the queue name, JSON content type, the event re-encoded. */
  function EventPublishing(e: VehicleEvent): (p: Publishing)
    ensures p.exchange == "" && p.routingKey == Connector.QueueName
    ensures !p.mandatory && !p.immediate && p.contentType == "application/json"
    ensures Unmarshal(p.body) == Some(e)
  {
    Publishing("", Connector.QueueName, false, false, "application/json", Marshal(e))
  }

  /** eventHandler (receiver/main.go:90-123). */
  function HandleEvent(httpMethod: string, decoded: Option<VehicleEvent>, publish: Outcome): (r: Response)
    ensures r.status == StatusMethodNotAllowed <==> httpMethod != "POST"
    ensures r.status == StatusBadRequest <==> httpMethod == "POST" && decoded.None?
    ensures r.published.Some? <==> httpMethod == "POST" && decoded.Some?
    ensures r.published.Some? ==> r.published.value == EventPublishing(decoded.value)
    ensures r.status == StatusOK <==> r.published.Some? && publish.Ok?
    ensures r.status == StatusInternalServerError <==> r.published.Some? && publish.Failed?
  {
    if httpMethod != "POST" then Response(StatusMethodNotAllowed, None)
    else match decoded
      case None => Response(StatusBadRequest, None)
      case Some(e) =>
        var message := EventPublishing(e);
        if publish.Failed? then Response(StatusInternalServerError, Some(message))
        else Response(StatusOK, Some(message))
  }

  // ---------------------------------------------------------------------
  // Properties

  /** A request with any method but POST (compared exactly: "post" is
      rejected too) is refused without reading the body or touching the
      queue: the response depends on neither the decoder's nor the broker's
      answer. */
  lemma NonPostIgnoresBodyAndQueue(httpMethod: string, d1: Option<VehicleEvent>, d2: Option<VehicleEvent>, p1: Outcome, p2: Outcome)
    requires httpMethod != "POST"
    ensures HandleEvent(httpMethod, d1, p1) == HandleEvent(httpMethod, d2, p2) == Response(StatusMethodNotAllowed, None)
  {
  }

  /** A POST whose body does not decode is refused as a bad request and the
      broker is never asked: the response does not depend on its answer. */
  lemma UndecodableIgnoresQueue(p1: Outcome, p2: Outcome)
    ensures HandleEvent("POST", None, p1) == HandleEvent("POST", None, p2) == Response(StatusBadRequest, None)
  {
  }

  /** What is published carries the event unchanged: the worker reading the
      message body back obtains exactly the decoded event. */
  lemma PublishedBodyCarriesEvent(e: VehicleEvent, publish: Outcome)
    ensures HandleEvent("POST", Some(e), publish).published.Some?
    ensures Unmarshal(HandleEvent("POST", Some(e), publish).published.value.body) == Some(e)
  {
  }

  /** A request body already in the encoder's layout is published byte for
      byte as it arrived, provided the decoder reads it as `Unmarshal` does. */
  lemma CanonicalBodyPublishedVerbatim(body: string, e: VehicleEvent, publish: Outcome)
    requires Unmarshal(body) == Some(e)
    ensures HandleEvent("POST", Some(e), publish).published.Some?
    ensures HandleEvent("POST", Some(e), publish).published.value.body == body
  {
    MarshalUnmarshal(body, e);
  }

  /** Two requests that publish the same message decoded the same event. */
  lemma PublishedBodyDeterminesEvent(e1: VehicleEvent, e2: VehicleEvent, p1: Outcome, p2: Outcome)
    requires HandleEvent("POST", Some(e1), p1).published == HandleEvent("POST", Some(e2), p2).published
    ensures e1 == e2
  {
    MarshalInjective(e1, e2);
  }
}

=== FILE: notifier.dfy ===
/** The e-mail alert: `sendEmailAlert` (receiver/main.go:163-190).

    The function builds a message that, when no field contains a line
    break, has two header lines, a blank line and a one-line body, and hands it to `smtp.SendMail` with the configured
    server address, optional PLAIN authentication, a fixed sender and the
    single configured recipient. The SMTP transport is not modelled: the
    alert is the request handed to it. Its answer is only logged, so no
    outcome of the model depends on it. */
module Notifier {
  import opened Wrappers
  import opened Events

  /** The SMTP settings read from the environment (receiver/main.go:21-25). */
  datatype SmtpConfig = SmtpConfig(host: string, port: string, username: string, password: string, target: string)

  /** The arguments of `smtp.PlainAuth(identity, username, password, host)`. */
  datatype PlainAuth = PlainAuth(identity: string, username: string, password: string, host: string)

  /** The arguments of one `smtp.SendMail` call. */
  datatype MailRequest = MailRequest(addr: string, auth: Option<PlainAuth>, from: string, to: seq<string>, msg: string)

  const Sender: string := "alerta@sistema.com"
  const SubjectText: string := "Alerta de Emergencia - Vehículo "
  const Crlf: string := "\r\n"

  /** The body line: type, plate and status in that order. */
  function AlertBody(e: VehicleEvent): string {
    "Se ha detectado un evento de emergencia de tipo: " + e.eventType
    + " para el vehículo con placa: " + e.vehiclePlate
    + ". con Estado: " + e.status
  }

  /** One header line, `Name: value` and CR LF. */
  function HeaderLine(name: string, value: string): string {
    name + ": " + value + Crlf
  }

  /** The message of receiver/main.go:165-175: `To: <target>`, then
      `Subject: Alerta de Emergencia - Vehículo <plate>`, an empty line and
      the body. */
  function AlertMessage(target: string, e: VehicleEvent): (msg: string)
    ensures HeaderLine("To", target) <= msg
    ensures |AlertBody(e)| + 4 <= |msg|
    ensures msg[|msg| - |AlertBody(e)| - 4..] == Crlf + Crlf + AlertBody(e)
  {
    var to := HeaderLine("To", target);
    var subject := "Subject" + ": " + (SubjectText + e.vehiclePlate);
    var body := AlertBody(e);
    BlankLineBeforeBody(to, subject, body);
    to + (subject + Crlf + (Crlf + body))
  }

  /** Headers `head` and a last header line `last`, then an empty line and
      the body: the body is preceded by two line ends. */
  lemma BlankLineBeforeBody(head: string, last: string, body: string)
    ensures var msg := head + (last + Crlf + (Crlf + body));
      head <= msg && |body| + 4 <= |msg| && msg[|msg| - |body| - 4..] == Crlf + Crlf + body
  {
    var msg := head + (last + Crlf + (Crlf + body));
    assert msg == (head + last) + (Crlf + Crlf + body);
    assert msg[..|head|] == head;
  }

  /** The `SendMail` call of receiver/main.go:177-183. */
  function AlertRequest(cfg: SmtpConfig, e: VehicleEvent): (r: MailRequest)
    ensures r.from == Sender && r.to == [cfg.target]
    ensures r.auth.Some? <==> cfg.username != ""
    ensures r.auth.Some? ==> r.auth.value == PlainAuth("", cfg.username, cfg.password, cfg.host)
    ensures r.addr == cfg.host + ":" + cfg.port
    ensures r.msg == AlertMessage(cfg.target, e)
  {
    var auth := if cfg.username != "" then Some(PlainAuth("", cfg.username, cfg.password, cfg.host)) else None;
    MailRequest(cfg.host + ":" + cfg.port, auth, Sender, [cfg.target], AlertMessage(cfg.target, e))
  }

  // ---------------------------------------------------------------------
  // Reading a message back: header lines up to the first empty line, each
  // `Name: value`, then the body. This is how a mail reader splits what
  // `SendMail` transmits.

  predicate NoLineBreak(s: string) {
    forall i :: 0 <= i < |s| ==> s[i] != '\r' && s[i] != '\n'
  }

  /** A header name: not empty, no colon, no line break. */
  predicate IsHeaderName(name: string) {
    name != [] && NoLineBreak(name) && forall i :: 0 <= i < |name| ==> name[i] != ':'
  }

  /** The position of the first CR LF in `s`. */
  function FindCrlf(s: string): (r: Option<nat>)
    ensures r.Some? ==> r.value + 2 <= |s| && s[r.value] == '\r' && s[r.value + 1] == '\n'
    ensures r.Some? ==> forall i :: 0 <= i < r.value ==> !(s[i] == '\r' && s[i + 1] == '\n')
    ensures r.None? ==> forall i :: 0 <= i < |s| - 1 ==> !(s[i] == '\r' && s[i + 1] == '\n')
    decreases |s|
  {
    if |s| < 2 then None
    else if s[0] == '\r' && s[1] == '\n' then Some(0)
    else match FindCrlf(s[1..])
      case None => None
      case Some(i) => Some(i + 1)
  }

  /** The position of the first ':' in `s`. */
  function FindColon(s: string): (r: Option<nat>)
    ensures r.Some? ==> r.value < |s| && s[r.value] == ':'
    ensures r.Some? ==> forall i :: 0 <= i < r.value ==> s[i] != ':'
    ensures r.None? ==> forall i :: 0 <= i < |s| ==> s[i] != ':'
    decreases |s|
  {
    if |s| == 0 then None
    else if s[0] == ':' then Some(0)
    else match FindColon(s[1..])
      case None => None
      case Some(i) => Some(i + 1)
  }

  /** A header line split into name and value: the name runs up to the
      first colon, and the one space after the colon is not part of the value. */
  function SplitHeader(line: string): (string, string) {
    match FindColon(line)
    case None => (line, "")
    case Some(j) =>
      var v := line[j + 1..];
      (line[..j], if |v| > 0 && v[0] == ' ' then v[1..] else v)
  }

  /** The header lines of `s` up to the empty line, and the body after it;
      None when a line is not terminated by CR LF. */
  function ReadHeaders(s: string): Option<(seq<(string, string)>, string)>
    decreases |s|
  {
    match FindCrlf(s)
    case None => None
    case Some(0) => Some(([], s[2..]))
    case Some(i) =>
      match ReadHeaders(s[i + 2..])
      case None => None
      case Some((hs, body)) => Some(([SplitHeader(s[..i])] + hs, body))
  }

  // ---------------------------------------------------------------------
  // Properties

  lemma {:induction false} FindCrlfAfterLine(a: string, b: string)
    requires NoLineBreak(a)
    ensures FindCrlf(a + "\r\n" + b) == Some(|a|)
    decreases |a|
  {
    var s := a + "\r\n" + b;
    if a != [] {
      assert s[1..] == a[1..] + "\r\n" + b;
      FindCrlfAfterLine(a[1..], b);
    }
  }

  lemma {:induction false} FindColonAfterName(name: string, v: string)
    requires forall i :: 0 <= i < |name| ==> name[i] != ':'
    ensures FindColon(name + ":" + v) == Some(|name|)
    decreases |name|
  {
    var s := name + ":" + v;
    if name != [] {
      assert s[1..] == name[1..] + ":" + v;
      FindColonAfterName(name[1..], v);
    }
  }

  /** `Name: value` splits back into the name and the value. */
  lemma SplitHeaderLine(name: string, value: string)
    requires forall i :: 0 <= i < |name| ==> name[i] != ':'
    ensures SplitHeader(name + ": " + value) == (name, value)
  {
    var line := name + ": " + value;
    assert line == name + ":" + (" " + value);
    FindColonAfterName(name, " " + value);
    assert line[..|name|] == name && line[|name| + 1..] == " " + value;
  }

  /** A header line whose value has no line breaks contributes exactly
      that header. */
  lemma ReadHeaderLine(name: string, value: string, rest: string, hs: seq<(string, string)>, body: string)
    requires IsHeaderName(name) && NoLineBreak(value)
    requires ReadHeaders(rest) == Some((hs, body))
    ensures ReadHeaders(HeaderLine(name, value) + rest) == Some(([(name, value)] + hs, body))
  {
    var line := name + ": " + value;
    var s := HeaderLine(name, value) + rest;
    assert s == line + "\r\n" + rest;
    NoLineBreakConcat(name, ": ");
    NoLineBreakConcat(name + ": ", value);
    FindCrlfAfterLine(line, rest);
    assert s[..|line|] == line && s[|line| + 2..] == rest;
    SplitHeaderLine(name, value);
  }

  /** The empty line ends the headers; everything after it is the body. */
  lemma ReadBlankLine(body: string)
    ensures ReadHeaders(Crlf + body) == Some(([], body))
  {
    assert (Crlf + body)[2..] == body;
  }

  lemma NoLineBreakConcat(a: string, b: string)
    requires NoLineBreak(a) && NoLineBreak(b)
    ensures NoLineBreak(a + b)
  {
    assert forall i :: |a| <= i < |a + b| ==> (a + b)[i] == b[i - |a|];
  }

  lemma FixedTextsPlain()
    ensures IsHeaderName("To") && IsHeaderName("Subject") && NoLineBreak(SubjectText)
  {
  }

  /** With a recipient and a plate free of line breaks, the alert reads back
      as exactly two headers — `To` naming the recipient and `Subject`
      naming the vehicle — and the body line. */
  lemma AlertMessageLayout(target: string, e: VehicleEvent)
    requires NoLineBreak(target) && NoLineBreak(e.vehiclePlate)
    ensures ReadHeaders(AlertMessage(target, e)) ==
      Some(([("To", target), ("Subject", SubjectText + e.vehiclePlate)], AlertBody(e)))
  {
    var subject := SubjectText + e.vehiclePlate;
    var tail := Crlf + AlertBody(e);
    FixedTextsPlain();
    NoLineBreakConcat(SubjectText, e.vehiclePlate);
    ReadBlankLine(AlertBody(e));
    ReadHeaderLine("Subject", subject, tail, [], AlertBody(e));
    assert [("Subject", subject)] + [] == [("Subject", subject)];
    ReadHeaderLine("To", target, HeaderLine("Subject", subject) + tail, [("Subject", subject)], AlertBody(e));
    assert [("To", target)] + [("Subject", subject)] == [("To", target), ("Subject", subject)];
  }

  /** The `To` header of the alert names the one recipient of the SMTP
      envelope. The plate is required free of line breaks because the
      statement reads the whole header block back, and a plate with CR LF
      CR LF would end it early; the `To` line itself comes first for every
      plate, as the contract of `AlertMessage` states. */
  lemma AlertAddressedToRecipient(cfg: SmtpConfig, e: VehicleEvent)
    requires NoLineBreak(cfg.target) && NoLineBreak(e.vehiclePlate)
    ensures var r := AlertRequest(cfg, e);
      ReadHeaders(r.msg).Some? && ReadHeaders(r.msg).value.0[0] == ("To", r.to[0]) && |r.to| == 1
  {
    AlertMessageLayout(cfg.target, e);
  }

  /** A value `pre + p + CR LF + name: value` writes two header lines. */
  lemma SplitValue(h: string, pre: string, p: string, name: string, value: string)
    ensures HeaderLine(h, pre + (p + Crlf + name + ": " + value)) == HeaderLine(h, pre + p) + HeaderLine(name, value)
  {
    var v := name + ": " + value;
    assert p + Crlf + name + ": " + value == (p + Crlf) + v;
    calc {
      HeaderLine(h, pre + ((p + Crlf) + v));
      h + ": " + (pre + ((p + Crlf) + v)) + Crlf;
      { assert pre + ((p + Crlf) + v) == (pre + p) + Crlf + v; }
      h + ": " + ((pre + p) + Crlf + v) + Crlf;
      (h + ": " + (pre + p) + Crlf) + (v + Crlf);
    }
  }

  /** The plate goes into the Subject line unchecked: a plate carrying CR LF
      and a further `Name: value` line adds that header to the alert. */
  lemma PlateInjectsHeader(target: string, e: VehicleEvent, p: string, name: string, value: string)
    requires NoLineBreak(target) && NoLineBreak(p) && NoLineBreak(value)
    requires IsHeaderName(name)
    requires e.vehiclePlate == p + Crlf + name + ": " + value
    ensures ReadHeaders(AlertMessage(target, e)) ==
      Some(([("To", target), ("Subject", SubjectText + p), (name, value)], AlertBody(e)))
  {
    var tail := Crlf + AlertBody(e);
    var subject := SubjectText + p;
    var subjectLine := HeaderLine("Subject", SubjectText + e.vehiclePlate);
    var extra := HeaderLine(name, value);
    assert subjectLine + tail == HeaderLine("Subject", subject) + (extra + tail) by {
      SplitValue("Subject", SubjectText, p, name, value);
      AppendAssoc(HeaderLine("Subject", subject), extra, tail);
    }
    FixedTextsPlain();
    NoLineBreakConcat(SubjectText, p);
    ReadBlankLine(AlertBody(e));
    ReadHeaderLine(name, value, tail, [], AlertBody(e));
    assert [(name, value)] + [] == [(name, value)];
    ReadHeaderLine("Subject", subject, extra + tail, [(name, value)], AlertBody(e));
    assert [("Subject", subject)] + [(name, value)] == [("Subject", subject), (name, value)];
    ReadHeaderLine("To", target, subjectLine + tail, [("Subject", subject), (name, value)], AlertBody(e));
    assert [("To", target)] + [("Subject", subject), (name, value)]
      == [("To", target), ("Subject", subject), (name, value)];
  }
}

=== FILE: receiver.dfy ===
/** The receiver process as a whole: the startup sequence of `main`
    (receiver/main.go:39-58) and the path of an event from the ingress
    endpoint through the queue to the alert. */
module Receiver {
  import opened Wrappers
  import opened Events
  import opened Settings
  import Connector
  import opened Ingress
  import opened Notifier
  import opened Worker

  /** How startup ends: the process exits because no attempt connected,
      panics because the concurrency limit is negative, exits because the
      worker cannot consume from the queue, or keeps running with a
      semaphore of the given size. */
  datatype Startup = ConnectFatal | PoolPanic | ConsumeFatal | Running(capacity: nat)

  /** `main` (receiver/main.go:39-58) and the consume call at the start of
      `startWorker` (receiver/main.go:127-139): connect, size the semaphore
      from the limit read at receiver/main.go:26, start consuming. The
      consume call runs in the worker goroutine, so the HTTP server may
      already answer requests before a consume failure ends the process;
      the outcome here is how the process ends up, not when. */
  function Start(answers: seq<Connector.Answers>, limit: string, consume: Outcome): (r: Startup)
    requires |answers| == Connector.MaxAttempts
    ensures r == ConnectFatal <==> forall k :: 0 <= k < Connector.MaxAttempts ==> !Connector.Succeeds(answers[k])
    ensures r == PoolPanic <==> Connector.ConnectOutcome(answers).Connected? && Atoi(limit) < 0
    ensures r == ConsumeFatal <==> Connector.ConnectOutcome(answers).Connected? && Atoi(limit) >= 0 && consume.Failed?
    ensures r.Running? ==> r.capacity == Atoi(limit) && consume.Ok?
  {
    if Connector.ConnectOutcome(answers).Fatal? then ConnectFatal
    else if Atoi(limit) < 0 then PoolPanic
    else if consume.Failed? then ConsumeFatal
    else Running(Atoi(limit))
  }

  /** The process keeps running exactly when some attempt connects, the
      limit reads as a non-negative number and consuming starts; the
      semaphore then has the size the limit reads as. */
  lemma StartRunning(answers: seq<Connector.Answers>, limit: string, consume: Outcome)
    requires |answers| == Connector.MaxAttempts
    ensures Start(answers, limit, consume).Running? <==>
      (exists k :: 0 <= k < Connector.MaxAttempts && Connector.Succeeds(answers[k]))
      && Atoi(limit) >= 0 && consume.Ok?
    ensures Start(answers, limit, consume).Running? ==> Start(answers, limit, consume).capacity == Atoi(limit)
  {
    Connector.ConnectedExactlyAtFirstSuccess(answers, 0);
  }

  /** `main` run step by step (receiver/main.go:39-52): connect to the broker
      at the address built from the credentials, then create the semaphore
      and start the worker, whose first act is the consume call. */
  method Boot(user: string, pass: string, host: string, cfg: SmtpConfig, answers: seq<Connector.Answers>, limit: string, consume: Outcome)
    returns (r: Startup, session: Connector.Session)
    requires |answers| == Connector.MaxAttempts
    ensures r == Start(answers, limit, consume)
    ensures session.calls == Connector.ConnectCalls(Connector.BrokerUrl(user, pass, host), answers)
  {
    session := new Connector.Session();
    var connected := session.ConnectToQueue(Connector.BrokerUrl(user, pass, host), answers);
    if connected.Fatal? {
      return ConnectFatal, session;
    }
    var capacity := Atoi(limit);
    if capacity < 0 {
      return PoolPanic, session;
    }
    var dispatcher := new Dispatcher(capacity, cfg);
    if consume.Failed? {
      return ConsumeFatal, session;
    }
    return Running(dispatcher.capacity), session;
  }

  /** An unset or non-numeric limit of at most 19 characters reads as 0: the
      receiver starts with a semaphore that admits no delivery. */
  lemma NonNumericLimitIsZero(answers: seq<Connector.Answers>, limit: string)
    requires |answers| == Connector.MaxAttempts
    requires Connector.ConnectOutcome(answers).Connected?
    requires |limit| <= 19 && !IsSignedDecimal(limit)
    ensures Start(answers, limit, Ok) == Running(0)
  {
    NotANumberIsZero(limit);
  }

  /** The worker started with the limit `limit`, consuming the deliveries
      `ds`. With a limit of 0 the first delivery waits forever for a token:
      nothing is processed and no alert is sent. */
  method RunWorker(cfg: SmtpConfig, limit: string, ds: seq<Delivery>, decode: string -> Option<VehicleEvent>)
    returns (sent: seq<MailRequest>, stuck: bool)
    requires Atoi(limit) >= 0
    ensures stuck <==> Atoi(limit) == 0 && |ds| > 0
    ensures stuck ==> sent == []
    ensures !stuck ==> sent == Alerts(cfg, ds, decode)
  {
    var dispatcher := new Dispatcher(Atoi(limit), cfg);
    var processed;
    processed, stuck := dispatcher.Consume(ds, decode);
    sent := dispatcher.sent;
    assert ds[..0] == [];
    assert ds[..|ds|] == ds;
  }

  // ---------------------------------------------------------------------
  // From request to alert

  /** One request to the ingress endpoint: its method, the decoder's answer
      for its body and the broker's answer to the publish. */
  datatype Request = Request(httpMethod: string, decoded: Option<VehicleEvent>, publish: Outcome)

  function Respond(q: Request): Response {
    HandleEvent(q.httpMethod, q.decoded, q.publish)
  }

  /** The deliveries the queue holds after the requests `rs`, starting
      empty and losing nothing: the body of each message whose publish call
      returned no error, in request order. */
  function Enqueued(rs: seq<Request>): seq<Delivery> {
    if rs == [] then []
    else
      var r := Respond(rs[|rs| - 1]);
      Enqueued(rs[..|rs| - 1]) + if r.status == StatusOK then [Delivery(r.published.value.body)] else []
  }

  /** The emergency events of the requests answered 200, in order. */
  function AcceptedEmergencies(rs: seq<Request>): (es: seq<VehicleEvent>)
    ensures forall i :: 0 <= i < |es| ==> IsEmergency(es[i])
  {
    if rs == [] then []
    else
      var q := rs[|rs| - 1];
      var accepted := Respond(q).status == StatusOK && IsEmergency(q.decoded.value);
      AcceptedEmergencies(rs[..|rs| - 1]) + if accepted then [q.decoded.value] else []
  }

  /** One more enqueued event extends the alerts by the alert for it, if it
      is an emergency, for a worker decoder that reads back every encoded
      event. */
  lemma AlertsStep(cfg: SmtpConfig, ds: seq<Delivery>, es: seq<VehicleEvent>, e: VehicleEvent, body: string, decode: string -> Option<VehicleEvent>)
    requires decode(body) == Some(e)
    requires Alerts(cfg, ds, decode) == Requests(cfg, es)
    ensures Alerts(cfg, ds + [Delivery(body)], decode) == Requests(cfg, es + if IsEmergency(e) then [e] else [])
  {
    var n := Notifications(cfg, Some(e));
    assert Alerts(cfg, ds + [Delivery(body)], decode) == Requests(cfg, es) + n by {
      AlertsSnoc(cfg, ds, Delivery(body), decode);
    }
    if IsEmergency(e) {
      assert Requests(cfg, es + [e]) == Requests(cfg, es) + n by {
        RequestsSnoc(cfg, es, e);
      }
    } else {
      assert n == [];
      assert es + [] == es;
      assert Requests(cfg, es) + [] == Requests(cfg, es);
    }
  }

  /** End to end: when a worker with a positive limit (see `RunWorker`)
      consumes what the endpoint enqueued, it sends one alert for each
      request answered 200 whose event is an emergency, in the order of the
      requests, and no other alert. Requests refused with 405, 400 or 500
      leave no trace. The worker's decoder need only read back every encoded
      event, as `Unmarshal` does. */
  lemma {:induction false} AlertsForAcceptedEmergencies(cfg: SmtpConfig, rs: seq<Request>, decode: string -> Option<VehicleEvent>)
    requires forall e :: decode(Marshal(e)) == Some(e)
    ensures Alerts(cfg, Enqueued(rs), decode) == Requests(cfg, AcceptedEmergencies(rs))
    decreases |rs|
  {
    if rs != [] {
      var init := rs[..|rs| - 1];
      var q := rs[|rs| - 1];
      var prev := Enqueued(init);
      var es := AcceptedEmergencies(init);
      assert Alerts(cfg, prev, decode) == Requests(cfg, es) by {
        AlertsForAcceptedEmergencies(cfg, init, decode);
      }
      if Respond(q).status == StatusOK {
        var e := q.decoded.value;
        assert Enqueued(rs) == prev + [Delivery(Marshal(e))];
        assert AcceptedEmergencies(rs) == es + if IsEmergency(e) then [e] else [];
        AlertsStep(cfg, prev, es, e, Marshal(e), decode);
      } else {
        assert Enqueued(rs) == prev + [] == prev;
        assert AcceptedEmergencies(rs) == es + [] == es;
      }
    }
  }

  /** The canonical reader is such a decoder. */
  lemma AlertsForAcceptedEmergenciesCanonical(cfg: SmtpConfig, rs: seq<Request>)
    ensures Alerts(cfg, Enqueued(rs), Unmarshal) == Requests(cfg, AcceptedEmergencies(rs))
  {
    AlertsForAcceptedEmergencies(cfg, rs, Unmarshal);
  }

  /** A single emergency event accepted with 200 leads, once a worker with a
      positive limit handles its delivery, to exactly the alert for that
      event; any other accepted event leads to none. */
  lemma OneEventOneAlert(cfg: SmtpConfig, e: VehicleEvent)
    ensures var r := HandleEvent("POST", Some(e), Ok);
      r.status == StatusOK && r.published.Some?
      && Notifications(cfg, Unmarshal(r.published.value.body)) == if IsEmergency(e) then [AlertRequest(cfg, e)] else []
  {
  }

  /** Five failed attempts stop the receiver before it serves any request. */
  lemma FiveFailuresAreFatal(answers: seq<Connector.Answers>, limit: string, consume: Outcome)
    requires |answers| == Connector.MaxAttempts
    requires forall k :: 0 <= k < Connector.MaxAttempts ==> !Connector.Succeeds(answers[k])
    ensures Start(answers, limit, consume) == ConnectFatal
  {
    Connector.ConnectedExactlyAtFirstSuccess(answers, 0);
  }

  /** An emergency for vehicle ABC123 is queued, and a worker with a
      positive limit sends exactly the alert for it. */
  lemma EmergencyScenario(cfg: SmtpConfig)
    ensures var e := VehicleEvent("Emergency", "ABC123", "stalled");
      var r := HandleEvent("POST", Some(e), Ok);
      r.status == StatusOK && r.published.Some?
      && Notifications(cfg, Unmarshal(r.published.value.body)) == [AlertRequest(cfg, e)]
  {
    var e := VehicleEvent("Emergency", "ABC123", "stalled");
    assert IsEmergency(e);
  }

  /** An informational event for vehicle XYZ999 is queued but never alerted. */
  lemma InfoScenario(cfg: SmtpConfig)
    ensures var e := VehicleEvent("Info", "XYZ999", "ok");
      var r := HandleEvent("POST", Some(e), Ok);
      r.status == StatusOK && r.published.Some?
      && Notifications(cfg, Unmarshal(r.published.value.body)) == []
  {
  }
}

=== FILE: settings.dfy ===
/** The concurrency limit of the dispatch worker.

    receiver/main.go:26 reads it as `strconv.Atoi(os.Getenv("CONCURRENCY_LIMIT"))`
    and discards the error, so the limit is whatever value Atoi returns
    alongside its error: 0 for a syntax error (an unset variable reads as the
    empty string) and the nearest 64-bit bound for a number out of range.
    `Atoi` below follows Go's strconv.ParseInt / ParseUint for base 10 on a
    64-bit platform, including where they stop scanning. */
module Settings {

  const MaxInt64: int := 0x7FFF_FFFF_FFFF_FFFF
  const MinInt64: int := -0x8000_0000_0000_0000
  const MaxUint64: int := 0xFFFF_FFFF_FFFF_FFFF
  /** ParseUint's overflow guard: a value at or above it cannot take one more digit. */
  const Cutoff: int := MaxUint64 / 10 + 1

  /** What ParseUint's digit loop ends with. */
  datatype Scan = Value(n: nat) | SyntaxError | RangeError

  predicate IsDigit(c: char) { '0' <= c <= '9' }

  function DigitValue(c: char): nat
    requires IsDigit(c)
  {
    c as int - '0' as int
  }

  /** ParseUint's digit loop from accumulator `acc`: a non-digit is a syntax
      error, and the loop stops with a range error as soon as the next digit
      would take the value past 2^64 - 1, without looking further. */
  function ScanDigits(s: string, acc: nat): Scan
    decreases |s|
  {
    if s == [] then Value(acc)
    else if !IsDigit(s[0]) then SyntaxError
    else if acc >= Cutoff then RangeError
    else if acc * 10 + DigitValue(s[0]) > MaxUint64 then RangeError
    else ScanDigits(s[1..], acc * 10 + DigitValue(s[0]))
  }

  /** strconv.Atoi on a 64-bit platform, the error discarded. */
  function Atoi(s: string): (r: int)
    ensures MinInt64 <= r <= MaxInt64
  {
    if s == [] then 0
    else
      var neg := s[0] == '-';
      var digits := if s[0] == '-' || s[0] == '+' then s[1..] else s;
      var scan := if digits == [] then SyntaxError else ScanDigits(digits, 0);
      match scan
      case SyntaxError => 0
      case RangeError => if neg then MinInt64 else MaxInt64
      case Value(n) =>
        if !neg && n > MaxInt64 then MaxInt64
        else if neg && n > -MinInt64 then MinInt64
        else if neg then -(n as int)
        else n
  }

  /** A sign (optional) followed by at least one decimal digit and nothing else. */
  predicate IsSignedDecimal(s: string) {
    if |s| > 0 && (s[0] == '-' || s[0] == '+') then AllDigits(s[1..]) else AllDigits(s)
  }

  /** At least one character, and every one a decimal digit. */
  predicate AllDigits(s: string) {
    |s| > 0 && forall i :: 0 <= i < |s| ==> IsDigit(s[i])
  }

  function DigitChar(d: nat): (c: char)
    requires d < 10
    ensures IsDigit(c) && DigitValue(c) == d
  {
    "0123456789"[d]
  }

  /** The decimal numeral of `n`, most significant digit first. */
  function Decimal(n: nat): (s: string)
    ensures |s| > 0
    decreases n
  {
    if n < 10 then [DigitChar(n)] else Decimal(n / 10) + [DigitChar(n % 10)]
  }

  // ---------------------------------------------------------------------
  // Properties

  lemma {:induction false} ScanDigitsAppend(a: string, b: string, acc: nat)
    ensures ScanDigits(a, acc).Value? ==> ScanDigits(a + b, acc) == ScanDigits(b, ScanDigits(a, acc).n)
    ensures ScanDigits(a, acc).RangeError? ==> ScanDigits(a + b, acc).RangeError?
    decreases |a|
  {
    if a != [] {
      assert (a + b)[0] == a[0] && (a + b)[1..] == a[1..] + b;
      if IsDigit(a[0]) && acc < Cutoff && acc * 10 + DigitValue(a[0]) <= MaxUint64 {
        ScanDigitsAppend(a[1..], b, acc * 10 + DigitValue(a[0]));
      }
    } else {
      assert a + b == b;
    }
  }

  /** The digit loop reads a numeral back as its value, or reports a range
      error exactly when the value does not fit in 64 bits. */
  lemma {:induction false} ScanDecimal(n: nat)
    ensures ScanDigits(Decimal(n), 0) == if n <= MaxUint64 then Value(n) else RangeError
    decreases n
  {
    var d := DigitChar(n % 10);
    if n < 10 {
      assert ScanDigits([d], 0) == ScanDigits([], n);
    } else {
      var m := n / 10;
      ScanDecimal(m);
      ScanDigitsAppend(Decimal(m), [d], 0);
      if m <= MaxUint64 {
        assert ScanDigits(Decimal(n), 0) == ScanDigits([d], m);
        assert m * 10 + DigitValue(d) == n;
        if m < Cutoff && n <= MaxUint64 {
          assert ScanDigits([d], m) == ScanDigits([], n);
        }
      }
    }
  }

  /** A configured limit is read as its value; one beyond the 64-bit range
      is clamped to the largest int64. */
  lemma AtoiDecimal(n: nat)
    ensures Atoi(Decimal(n)) == if n <= MaxInt64 then n else MaxInt64
  {
    ScanDecimal(n);
    assert Decimal(n)[0] != '-' && Decimal(n)[0] != '+';
  }

  /** A negative limit is read as its value, clamped to the smallest int64. */
  lemma AtoiNegativeDecimal(n: nat)
    ensures Atoi("-" + Decimal(n)) == if n <= -MinInt64 then -(n as int) else MinInt64
  {
    ScanDecimal(n);
    assert ("-" + Decimal(n))[1..] == Decimal(n);
  }

  function Pow10(k: nat): (p: nat)
  {
    if k == 0 then 1 else 10 * Pow10(k - 1)
  }

  lemma {:induction false} Pow10Monotone(j: nat, k: nat)
    requires j <= k
    ensures 1 <= Pow10(j) <= Pow10(k)
    decreases k
  {
    if j < k { Pow10Monotone(j, k - 1); }
    else if k > 0 { Pow10Monotone(k - 1, k - 1); }
  }

  lemma Pow10Of19()
    ensures Pow10(19) == 10_000_000_000_000_000_000
  {
    assert Pow10(5) == 100_000;
    assert Pow10(10) == 10_000_000_000;
    assert Pow10(15) == 1_000_000_000_000_000;
  }

  /** On a digit string short enough that the accumulated value stays below
      10^19, the loop never overflows: it yields a value when every
      character is a digit and a syntax error otherwise. */
  lemma {:induction false} ScanShort(s: string, acc: nat, k: nat)
    requires acc < Pow10(k) && k + |s| <= 19
    ensures (forall i :: 0 <= i < |s| ==> IsDigit(s[i])) ==> ScanDigits(s, acc).Value?
    ensures !(forall i :: 0 <= i < |s| ==> IsDigit(s[i])) ==> ScanDigits(s, acc) == SyntaxError
    decreases |s|
  {
    if s != [] {
      Pow10Of19();
      Pow10Monotone(k, 18);
      if IsDigit(s[0]) {
        var next := acc * 10 + DigitValue(s[0]);
        assert next < Pow10(k + 1);
        ScanShort(s[1..], next, k + 1);
        assert forall i :: 1 <= i < |s| ==> s[i] == s[1..][i - 1];
      }
    }
  }

  /** A limit that is not a signed decimal numeral reads as 0; an unset one
      (the empty string) among them. Strings of at most 19 characters cannot
      overflow before the offending character is reached, so the syntax
      error is all that decides the result. */
  lemma NotANumberIsZero(s: string)
    requires |s| <= 19 && !IsSignedDecimal(s)
    ensures Atoi(s) == 0
  {
    if s != [] {
      var digits := if s[0] == '-' || s[0] == '+' then s[1..] else s;
      if digits != [] {
        ScanShort(digits, 0, 0);
      }
    }
  }

  /** A word as limit, such as "abc", or a sign with no digits reads as 0. */
  lemma WordLimitIsZero()
    ensures Atoi("abc") == 0 && Atoi("-") == 0 && Atoi("4x") == 0
  {
    assert !IsDigit("abc"[0]) && !IsDigit("4x"[1]);
    NotANumberIsZero("abc");
    NotANumberIsZero("-");
    NotANumberIsZero("4x");
  }
}

=== FILE: worker.dfy ===
/** The dispatch worker: `startWorker` with the `workerPool` semaphore
    (receiver/main.go:51, 126-161).

    Deliveries are consumed with auto-acknowledgement, so a delivery is gone
    from the queue once received. For each one the worker puts a token into
    the buffered channel `workerPool` (blocking while it is full), and a
    goroutine decodes the body, sends an alert when the type is exactly
    "Emergency", and takes its token back on every way out. The JSON decoder
    is an oracle `decode`, a function of the body, as `json.Unmarshal` is. */
module Worker {
  import opened Wrappers
  import opened Events
  import opened Notifier

  const EmergencyType: string := "Emergency"

  /** A delivery received from the queue: only its body is used. */
  datatype Delivery = Delivery(body: string)

  /** The test of receiver/main.go:155: the type is compared character by
      character with "Emergency", case included, with no trimming. */
  predicate IsEmergency(e: VehicleEvent): (b: bool)
    ensures b <==> (|e.eventType| == |EmergencyType|
                    && forall i :: 0 <= i < |EmergencyType| ==> e.eventType[i] == EmergencyType[i])
  {
    e.eventType == EmergencyType
  }

  /** The alerts sent for one delivery whose body decoded to `decoded`. */
  function Notifications(cfg: SmtpConfig, decoded: Option<VehicleEvent>): (r: seq<MailRequest>)
    ensures |r| <= 1
    ensures |r| == 1 <==> decoded.Some? && IsEmergency(decoded.value)
    ensures |r| == 1 ==> r[0] == AlertRequest(cfg, decoded.value)
  {
    match decoded
    case None => []
    case Some(e) => if IsEmergency(e) then [AlertRequest(cfg, e)] else []
  }

  /** The alerts sent for the deliveries `ds`, handled one after another:
      at most one per delivery. */
  function Alerts(cfg: SmtpConfig, ds: seq<Delivery>, decode: string -> Option<VehicleEvent>): (r: seq<MailRequest>)
    ensures |r| <= |ds|
  {
    if ds == [] then [] else Alerts(cfg, ds[..|ds| - 1], decode) + Notifications(cfg, decode(ds[|ds| - 1].body))
  }

  /** `m` is the alert for the emergency event that delivery `d` decodes to. */
  predicate Sound(cfg: SmtpConfig, d: Delivery, decode: string -> Option<VehicleEvent>, m: MailRequest) {
    decode(d.body).Some? && IsEmergency(decode(d.body).value) && m == AlertRequest(cfg, decode(d.body).value)
  }

  /** The decoded emergency events among the deliveries `ds`, in order. */
  function EmergencyEvents(ds: seq<Delivery>, decode: string -> Option<VehicleEvent>): (r: seq<VehicleEvent>)
    ensures |r| <= |ds|
    ensures forall i :: 0 <= i < |r| ==> IsEmergency(r[i])
    ensures forall i :: 0 <= i < |r| ==> exists j :: 0 <= j < |ds| && decode(ds[j].body) == Some(r[i])
    ensures forall j :: 0 <= j < |ds| && decode(ds[j].body).Some? && IsEmergency(decode(ds[j].body).value) ==>
      decode(ds[j].body).value in r
  {
    if ds == [] then []
    else
      var init := ds[..|ds| - 1];
      var d := decode(ds[|ds| - 1].body);
      var prev := EmergencyEvents(init, decode);
      assert forall j :: 0 <= j < |init| ==> init[j] == ds[j];
      if d.Some? && IsEmergency(d.value) then prev + [d.value] else prev
  }

  /** The alert requests for the events `es`, one each, in order. */
  function Requests(cfg: SmtpConfig, es: seq<VehicleEvent>): (r: seq<MailRequest>)
    ensures |r| == |es|
    ensures forall i :: 0 <= i < |es| ==> r[i] == AlertRequest(cfg, es[i])
  {
    if es == [] then [] else Requests(cfg, es[..|es| - 1]) + [AlertRequest(cfg, es[|es| - 1])]
  }

  /** The owner of the `workerPool` semaphore and of the alerts sent so far. */
  class Dispatcher {
    /** The buffer size of `workerPool`, from the concurrency limit. */
    const capacity: nat
    const config: SmtpConfig
    /** The deliveries holding a token of `workerPool`, in order of acquisition. */
    var inFlight: seq<Delivery>
    /** Every `SendMail` call made so far, in order. */
    var sent: seq<MailRequest>

    /** The channel never holds more tokens than its buffer size. */
    ghost predicate Valid()
      reads this
    {
      |inFlight| <= capacity
    }

    /** `make(chan struct{}, concurrencyLimit)` (receiver/main.go:51); a
        negative size panics and never gets here. */
    constructor (capacity: nat, config: SmtpConfig)
      ensures Valid()
      ensures this.capacity == capacity && this.config == config
      ensures inFlight == [] && sent == []
    {
      this.capacity := capacity;
      this.config := config;
      inFlight := [];
      sent := [];
    }

    /** `workerPool <- struct{}{}` (receiver/main.go:142): takes a token when
        one is free; otherwise the send blocks and nothing changes. */
    method Acquire(d: Delivery) returns (acquired: bool)
      requires Valid()
      modifies this
      ensures Valid()
      ensures acquired <==> |old(inFlight)| < capacity
      ensures inFlight == if acquired then old(inFlight) + [d] else old(inFlight)
      ensures sent == old(sent)
    {
      acquired := |inFlight| < capacity;
      if acquired {
        inFlight := inFlight + [d];
      }
    }

    /** The goroutine of receiver/main.go:144-159 for the delivery holding
        token `i`: decode, alert on an emergency, and release the token on
        every path, as the deferred receive does. */
    method Finish(i: nat, decode: string -> Option<VehicleEvent>)
      requires Valid() && i < |inFlight|
      modifies this
      ensures Valid()
      ensures inFlight == old(inFlight[..i] + inFlight[i + 1..])
      ensures sent == old(sent) + Notifications(config, decode(old(inFlight[i]).body))
    {
      var delivery := inFlight[i];
      var event := decode(delivery.body);
      if event.None? {
        // The invalid message is logged; the deferred release still runs.
        inFlight := inFlight[..i] + inFlight[i + 1..];
        return;
      }
      if event.value.eventType == EmergencyType {
        sent := sent + [AlertRequest(config, event.value)];
      }
      inFlight := inFlight[..i] + inFlight[i + 1..];
    }

    /** The range loop of receiver/main.go:141-160 over the deliveries `ds`,
        starting with no token held and each goroutine running to completion
        before the next delivery is received. With a buffer of size 0 the
        first send on `workerPool` blocks forever: no goroutine exists that
        could receive from it. */
    method Consume(ds: seq<Delivery>, decode: string -> Option<VehicleEvent>) returns (processed: nat, stuck: bool)
      requires Valid() && inFlight == []
      modifies this
      ensures Valid()
      ensures inFlight == []
      ensures stuck <==> |ds| > 0 && capacity == 0
      ensures processed == if stuck then 0 else |ds|
      ensures sent == old(sent) + Alerts(config, ds[..processed], decode)
    {
      processed := 0;
      while processed < |ds|
        invariant processed <= |ds|
        invariant Valid()
        invariant inFlight == []
        invariant capacity == 0 ==> processed == 0
        invariant sent == old(sent) + Alerts(config, ds[..processed], decode)
      {
        var d := ds[processed];
        var acquired := Acquire(d);
        if !acquired {
          return processed, true;
        }
        Finish(|inFlight| - 1, decode);
        assert inFlight == [] by {
          var held: seq<Delivery> := [d];
          assert held[..0] == [];
        }
        TakeSnoc(ds, processed);
        AlertsSnoc(config, ds[..processed], d, decode);
        AppendAssoc(old(sent), Alerts(config, ds[..processed], decode), Notifications(config, decode(d.body)));
        processed := processed + 1;
      }
      assert ds[..processed] == ds;
      stuck := false;
    }
  }

  // ---------------------------------------------------------------------
  // Properties

  /** Only the exact type "Emergency" raises an alert: "emergency",
      "EMERGENCY" or "Emergency " do not. */
  lemma ExactTypeOnly(cfg: SmtpConfig, e: VehicleEvent)
    requires e.eventType in {"emergency", "EMERGENCY", "Emergency "}
    ensures Notifications(cfg, Some(e)) == []
  {
  }

  /** The alerts for a run of deliveries are the alert requests for the
      emergency events among them, one per event, in delivery order. */
  lemma {:induction false} AlertsOfEmergencies(cfg: SmtpConfig, ds: seq<Delivery>, decode: string -> Option<VehicleEvent>)
    ensures Alerts(cfg, ds, decode) == Requests(cfg, EmergencyEvents(ds, decode))
    decreases |ds|
  {
    if ds != [] {
      var init := ds[..|ds| - 1];
      AlertsOfEmergencies(cfg, init, decode);
      var prev := EmergencyEvents(init, decode);
      var d := decode(ds[|ds| - 1].body);
      if d.Some? && IsEmergency(d.value) {
        var es := prev + [d.value];
        assert es[..|es| - 1] == prev;
      }
    }
  }

  /** Handling one more delivery adds its notifications at the end. */
  lemma AlertsSnoc(cfg: SmtpConfig, ds: seq<Delivery>, d: Delivery, decode: string -> Option<VehicleEvent>)
    ensures Alerts(cfg, ds + [d], decode) == Alerts(cfg, ds, decode) + Notifications(cfg, decode(d.body))
  {
    assert (ds + [d])[..|ds|] == ds;
  }

  lemma TakeSnoc(ds: seq<Delivery>, n: nat)
    requires n < |ds|
    ensures ds[..n + 1] == ds[..n] + [ds[n]]
  {
  }

  lemma RequestsSnoc(cfg: SmtpConfig, es: seq<VehicleEvent>, e: VehicleEvent)
    ensures Requests(cfg, es + [e]) == Requests(cfg, es) + [AlertRequest(cfg, e)]
  {
    assert (es + [e])[..|es|] == es;
  }

  /** Handling two runs one after the other sends the alerts of the first
      and then those of the second. */
  lemma {:induction false} AlertsAppend(cfg: SmtpConfig, a: seq<Delivery>, b: seq<Delivery>, decode: string -> Option<VehicleEvent>)
    ensures Alerts(cfg, a + b, decode) == Alerts(cfg, a, decode) + Alerts(cfg, b, decode)
    decreases |b|
  {
    if b == [] {
      assert a + b == a;
    } else {
      var b' := b[..|b| - 1];
      var n := Notifications(cfg, decode(b[|b| - 1].body));
      assert Alerts(cfg, a + b, decode) == Alerts(cfg, a + b', decode) + n by {
        assert (a + b)[..|a + b| - 1] == a + b';
        assert (a + b)[|a + b| - 1] == b[|b| - 1];
      }
      AlertsAppend(cfg, a, b', decode);
      assert Alerts(cfg, b, decode) == Alerts(cfg, b', decode) + n;
      AppendAssoc(Alerts(cfg, a, decode), Alerts(cfg, b', decode), n);
    }
  }

  /** Undecodable deliveries send nothing and do not stop the loop: removing
      one from a run changes nothing that is sent. */
  lemma UndecodableSkipped(cfg: SmtpConfig, a: seq<Delivery>, bad: Delivery, b: seq<Delivery>, decode: string -> Option<VehicleEvent>)
    requires decode(bad.body).None?
    ensures Alerts(cfg, a + [bad] + b, decode) == Alerts(cfg, a + b, decode)
  {
    var x := Alerts(cfg, a, decode);
    assert Alerts(cfg, a + [bad], decode) == x by {
      assert (a + [bad])[..|a + [bad]| - 1] == a;
      assert Notifications(cfg, decode(bad.body)) == [];
      assert x + [] == x;
    }
    assert Alerts(cfg, a + [bad] + b, decode) == x + Alerts(cfg, b, decode) by {
      AlertsAppend(cfg, a + [bad], b, decode);
    }
    AlertsAppend(cfg, a, b, decode);
  }

  /** The same message delivered twice is handled twice: an emergency the
      queue delivers twice raises two alerts, in place, whatever comes
      before and after it. */
  lemma DuplicateDeliveryAlertedTwice(cfg: SmtpConfig, a: seq<Delivery>, d: Delivery, b: seq<Delivery>, decode: string -> Option<VehicleEvent>)
    requires decode(d.body).Some? && IsEmergency(decode(d.body).value)
    ensures var m := AlertRequest(cfg, decode(d.body).value);
      Alerts(cfg, a + [d, d] + b, decode) == Alerts(cfg, a, decode) + [m, m] + Alerts(cfg, b, decode)
  {
    var m := AlertRequest(cfg, decode(d.body).value);
    var twice := Alerts(cfg, [d, d], decode);
    assert twice == [m, m] by {
      assert Notifications(cfg, decode(d.body)) == [m];
      AlertsSnoc(cfg, [], d, decode);
      AlertsSnoc(cfg, [d], d, decode);
      assert [] + [d] == [d] && [d] + [d] == [d, d];
    }
    assert Alerts(cfg, a + [d, d], decode) == Alerts(cfg, a, decode) + twice by {
      AlertsAppend(cfg, a, [d, d], decode);
    }
    assert Alerts(cfg, a + [d, d] + b, decode) == Alerts(cfg, a + [d, d], decode) + Alerts(cfg, b, decode) by {
      AlertsAppend(cfg, a + [d, d], b, decode);
    }
  }

  /** Every alert sent is the alert for the emergency event that some
      delivery of the run decodes to. */
  lemma {:induction false} AlertsSound(cfg: SmtpConfig, ds: seq<Delivery>, decode: string -> Option<VehicleEvent>)
    ensures forall i :: 0 <= i < |Alerts(cfg, ds, decode)| ==>
      exists j :: 0 <= j < |ds| && Sound(cfg, ds[j], decode, Alerts(cfg, ds, decode)[i])
    decreases |ds|
  {
    if ds != [] {
      var init := ds[..|ds| - 1];
      var prev := Alerts(cfg, init, decode);
      var last := Notifications(cfg, decode(ds[|ds| - 1].body));
      AlertsSound(cfg, init, decode);
      var r := Alerts(cfg, ds, decode);
      assert r == prev + last;
      forall i | 0 <= i < |r|
        ensures exists j :: 0 <= j < |ds| && Sound(cfg, ds[j], decode, r[i])
      {
        if i < |prev| {
          var j :| 0 <= j < |init| && Sound(cfg, init[j], decode, prev[i]);
          assert init[j] == ds[j] && r[i] == prev[i];
          assert Sound(cfg, ds[j], decode, r[i]);
        } else {
          assert r[i] == last[i - |prev|];
          assert Sound(cfg, ds[|ds| - 1], decode, r[i]);
        }
      }
    } else {
      assert |Alerts(cfg, ds, decode)| == 0;
    }
  }
}

=== FILE: wrappers.dfy ===
/** Small value wrappers shared by every module of the receiver model. */
module Wrappers {

  /** An optional value: a decoded event, a handle, a parsed field. */
  datatype Option<+T> = None | Some(value: T)

  /** The result of a call into a foreign library (AMQP, HTTP, SMTP) whose
      internals are not modelled: it either succeeded or failed with a cause. */
  datatype Outcome = Ok | Failed(cause: string)

  /** Concatenation regroups: used to line up a text or a list of alerts
      built in one order with the same parts grouped in another. */
  lemma AppendAssoc<T>(a: seq<T>, b: seq<T>, c: seq<T>)
    ensures (a + b) + c == a + (b + c)
  {
  }
}
